=== FILE: README.md ===
# Task tree mirror of the todo page

The todo application's page (`src/app/page.tsx`) keeps a client-side copy of the
task hierarchy. Once its request to the task API has resolved, it rewrites that
copy with a small recursive helper, without fetching the tree again. The delete
and the rename do not look at the response status at all. The add and the move
check `response.ok`, but the update route answers a failed update with status
200, so a failed move also reaches the rewrite.

- adding a root task appends the created task;
- `addSubtaskToParent` attaches a new subtask under every task with the given id
  that has no ancestor with that id (with unique ids: the one task with that id);
- `removeTaskById` drops every task with the given id, together with its subtree;
- `updateTaskTitle` renames every task with the given id that has no ancestor
  with that id (with unique ids: the one task with that id);
- `updateSubtaskParent` moves a task. Its inner `removeSubtaskById` records the
  removed node in a closure variable, and a second copy of `addSubtaskToParent`
  re-inserts that node under the new parent.

This project models those helpers as pure functions over an immutable forest and
proves what they do to it.

Module layout:

- `Wrappers` (wrappers.dfy): the `Option` type.
- `Tasks` (tasks.dfy): the `Task` record and the forest, plus the views the proofs use:
  - `IdsOf`: the multiset of ids at every depth.
  - `Lookup`: the first node with an id, in pre-order.
  - `Occurs`: whether a node is anywhere in the forest.
  - `TopMatches`: how many matching nodes have no matching ancestor.
  - `Cut`: the ids in those nodes' subtrees.
  - `WellLinked`: each child's `parentId` names its parent.
  - `Flatten`: the pre-order listing, each entry tagged with its ancestors' ids.
  - `EraseTitles`: the forest with every title blanked.
- `Mirror` (mirror.dfy): the page's helpers. The closure variable of
  `removeSubtaskById` becomes a threaded `Option<Task>` value. The move dialog
  is `MoveTargets` (its options), `Choice` (what its select holds when the
  button is pressed) and `DialogMove` (the press).
- `DeleteProofs`, `RenameProofs`, `AddProofs`, `MoveProofs`: the properties of
  each helper. Each is related to a reference definition or to an invariant:
  - the delete and the rename are compared with reference definitions on the
    pre-order listing (`Keep`, `Retitle`);
  - the add is related to its inverse, the delete;
  - the move is related to the delete (`MoveKeepsRest`);
  - the add, the delete, the rename and the corrected move are shown to preserve
    unique ids and the parent links; the move as written keeps unique ids but is
    shown to break the parent links (see "## Findings").

Ids are unbounded integers. "Unique ids" (`UniqueIds`) means no id occurs twice
anywhere in the forest. The model takes this as an assumption about the server:
its update and delete routes address a task by `where: { id }`
(src/app/api/tasks/[id]/route.ts:15-19, :46-49), which only makes sense for a unique
key; the page never checks it. The helpers themselves do not assume it, so the model does not
either, and it states separately what happens when ids repeat.

## Model

| member | source | states |
|---|---|---|
| Mirror.AppendRoot | src/app/page.tsx:216-217 | The created task goes into the list after the existing roots: the result is the old list followed by the new task, the ids grow by exactly the new task's ids, and the new task is a node of the result |
| AddProofs.AppendRootInvariants | src/app/page.tsx:217 | A fresh root task with no parent and no children keeps the roots well linked and all ids unique |
| AddProofs.RemoveAfterAppendRoot | src/app/page.tsx:217 | Deleting the appended task's id afterwards gives what deleting it before would have. If the id was fresh, this gives back the original list |
| Mirror.AddSubtask | src/app/page.tsx:240-262 | `addSubtaskToParent` over one sibling list keeps the number of siblings. What it does below them is stated by the `AddProofs` lemmas in the rows that follow |
| Mirror.AddUnder | src/app/page.tsx:245-260 | The per-task callback keeps the task's id, title and parentId. On a task with the parent id, the children become the old children followed by the subtask |
| AddProofs.AddSubtaskIds | src/app/page.tsx:240-262 | The add brings in one copy of the subtask's ids per matching node that has no matching ancestor, and nothing else |
| AddProofs.AddSubtaskHeads | src/app/page.tsx:245-261 | The add keeps the number of root tasks, and their ids, titles, parentIds and order |
| AddProofs.AddSubtaskAbsent | src/app/page.tsx:240-262 | Attaching under an id that is nowhere in the forest returns the forest unchanged |
| AddProofs.AddSubtaskGrowsByOne | src/app/page.tsx:240-262 | With unique ids and the parent present, the forest gains exactly the subtask's ids, so the node count grows by the subtask's size |
| AddProofs.AddSubtaskLookupParent | src/app/page.tsx:246-250 | The first node with the parent id comes back with the subtask appended as its last child and its other fields untouched |
| AddProofs.AddSubtaskOccurs | src/app/page.tsx:246-250 | When the parent is present, the subtask is a node of the result |
| AddProofs.RemoveAfterAdd | src/app/page.tsx:240-262 | For every forest, deleting the subtask's id after the add gives the same forest as deleting it from the original (the delete undoes the add) |
| AddProofs.AddThenRemoveFresh | src/app/page.tsx:240-262 | A subtask with a fresh id is removed again, exactly, by deleting its id |
| AddProofs.AddSubtaskWellLinked | src/app/page.tsx:240-262 | Attaching a subtask whose parentId names the new parent keeps every parent link right |
| AddProofs.AddSubtaskUnique | src/app/page.tsx:240-262 | Attaching a subtree of fresh, distinct ids keeps ids unique, whether or not the parent is present |
| Mirror.RemoveTask | src/app/page.tsx:276-283 | `removeTaskById` over one sibling list never makes it longer. What it does at every depth is stated by the `DeleteProofs` lemmas in the rows that follow |
| Mirror.PruneNode | src/app/page.tsx:279-282 | The per-task map callback keeps the task's id, title and parentId, and never adds children |
| DeleteProofs.RemoveTaskFlatten | src/app/page.tsx:276-283 | The pre-order listing of the result is the input's listing with the deleted id's entries, and every entry below them, filtered out. Each survivor keeps its id, title, parentId, depth and sibling order |
| DeleteProofs.RemoveTaskSpec | src/app/page.tsx:276-283 | After a delete the id occurs at no depth, the ids only shrink, and deleting an absent id returns the input unchanged |
| DeleteProofs.RemoveTaskGone | src/app/page.tsx:276-283 | The deleted id is absent at every depth of the result |
| DeleteProofs.RemoveTaskAbsent | src/app/page.tsx:276-283 | Deleting an id that is not in the forest returns the forest unchanged |
| DeleteProofs.RemoveTaskIds | src/app/page.tsx:276-283 | The ids lost are exactly the ids inside the subtrees rooted at the deleted id's top-most nodes |
| DeleteProofs.RemoveTaskUnique | src/app/page.tsx:276-283 | With unique ids, the delete loses exactly the deleted node's subtree, and the ids stay unique |
| DeleteProofs.RemoveTaskWellLinked | src/app/page.tsx:276-283 | The delete keeps every parent link right |
| DeleteProofs.RemoveTaskIdempotent | src/app/page.tsx:276-283 | Deleting the same id twice is deleting it once |
| DeleteProofs.RemoveTaskAppend | src/app/page.tsx:277-282 | The delete works sibling by sibling: on a concatenation of sibling lists it is the concatenation of the deletes |
| Mirror.UpdateTitle | src/app/page.tsx:301-316 | `updateTaskTitle` over one sibling list keeps the number of siblings. What it does below them is stated by the `RenameProofs` lemmas in the rows that follow |
| Mirror.RenameNode | src/app/page.tsx:306-314 | The per-task callback keeps the id and parentId. A task with the id gets the new title and nothing else changes; any other task keeps its title and its number of children |
| RenameProofs.UpdateTitleFlatten | src/app/page.tsx:301-316 | The pre-order listing of the result is the input's listing with the new title on exactly the entries that carry the id and have no ancestor carrying it |
| RenameProofs.UpdateTitleShape | src/app/page.tsx:301-316 | With titles blanked, the result equals the input: the shape, ids and parentIds are all kept |
| RenameProofs.UpdateTitleAbsent | src/app/page.tsx:301-316 | Renaming an id that is not in the forest returns the forest unchanged |
| RenameProofs.EraseTitlesKeeps | src/app/page.tsx:306-315 | Blanking the titles keeps the ids and the parent links, so the forests that `UpdateTitleShape` relates agree on both |
| RenameProofs.UpdateTitleInvariants | src/app/page.tsx:301-316 | A rename keeps the multiset of ids, their uniqueness and the parent links |
| RenameProofs.UpdateTitleLookup | src/app/page.tsx:306-308 | Whenever the id is present, reading the renamed id back gives the first node with that id with only its title changed |
| RenameProofs.UpdateTitleIdempotent | src/app/page.tsx:301-316 | Renaming twice to the same title is renaming once |
| Mirror.LastMatch | src/app/page.tsx:346-353 | The filter pass over one sibling list records the last sibling with the id (none after it has it). With none, the previously recorded value stays |
| Mirror.Prune | src/app/page.tsx:345-357 | The forest produced is the one `removeTaskById` produces. The recorded node changes only when the id is found below a surviving sibling, and then it is a node of the input with that id |
| Mirror.RemoveSubtask | src/app/page.tsx:343-358 | `removeSubtaskById` yields the same forest as `removeTaskById`. It records a node exactly when the id is present, and that node is a node of the input with that id |
| Mirror.MoveSubtask | src/app/page.tsx:338-391 | An absent id returns the input unchanged. Otherwise the result is the forest with every node of that id cut out, plus one such node of the input re-attached unchanged under the new parent |
| Mirror.MoveReparented | src/app/page.tsx:384-390 | The corrected move: the same, but the re-attached node's parentId is the new parent |
| Mirror.MoveTargets | src/app/page.tsx:42-43 | The move dialog offers exactly the root tasks other than the one being moved, as a subsequence of the root list (so in its order) |
| Mirror.MoveTargetsCount | src/app/page.tsx:42-43 | Each offered root task is listed as often as it occurs among the roots, and the task being moved not at all |
| Mirror.DialogMove | src/app/page.tsx:25-30 | Pressing the button sends nothing while no parent is chosen, so the mirror is unchanged; the placeholder sends 0 (:37, :41) and a picked task sends its id. A move of an id that is not in the forest also leaves it unchanged. What follows each choice is stated by `MoveProofs.DialogMoveOutcome` |
| MoveProofs.MoveKeepsRest | src/app/page.tsx:384-390 | For every input, deleting the moved id after the move gives what deleting it before would have, so nothing outside the moved subtree changes |
| MoveProofs.MoveLosesSubtree | src/app/page.tsx:384-388 | If the new parent does not survive the cut (it is absent, or it is inside the moved subtree), the moved subtree vanishes from the mirror; with the moved id absent, the mirror is unchanged |
| MoveProofs.MoveSubtaskUnique | src/app/page.tsx:384-390 | For every moved id and target, the move as written keeps ids unique |
| MoveProofs.MoveIntoOwnSubtree | src/app/page.tsx:384-388 | With unique ids, a target inside the moved subtree does not survive the cut, so the move deletes the subtree |
| MoveProofs.MoveSubtaskPreserves | src/app/page.tsx:338-391 | With unique ids and a present target outside the moved subtree, the move keeps the same multiset of ids. The moved node comes back whole, with the same title, children and old parentId, as the target's last child |
| MoveProofs.MoveReparentedPreserves | src/app/page.tsx:384-390 | The corrected move gives the same guarantees: no id lost or duplicated, and the moved node, with its parentId set to the new parent and nothing else changed, reads back by its id and is the target's last child |
| MoveProofs.MoveReparentedWellLinked | src/app/page.tsx:384-390 | The corrected move keeps every parent link right, for every id and target |
| MoveProofs.MoveSubtaskStaleParent | src/app/page.tsx:384-387 | The move as written breaks the parent links whenever the node really changes parent |
| MoveProofs.MoveSubtaskStaleExample | src/app/page.tsx:384-387 | For any three distinct ids: roots `a` (with child `c`) and `b` form a well-linked forest, and the move as written of `c` to `b` makes it not well linked |
| MoveProofs.MoveTargetOutside | src/app/page.tsx:42-43 | With unique ids, every root task the dialog lists is present and lies outside the moved subtree, so the page's move to it keeps every id |
| MoveProofs.DialogMoveOutcome | src/app/page.tsx:23-43 | Pressing the dialog's button: with no parent chosen the mirror is unchanged; with a listed root task chosen every id is kept; with the placeholder picked again, 0 is sent, and when no task has id 0 the moved subtree vanishes from the mirror |

## Left out

- Network, persistence and the UI are not modelled. This covers the `fetch` calls, the response checks, the error logging, the React state and rendering, the loading timer, and the server routes (`src/app/api/tasks/route.ts`, `src/app/api/tasks/[id]/route.ts`), including the server's own cascading delete. Each helper is modelled as the state update alone; the model does not look at the server's answer. On the page the adds and the move run the rewrite only when `response.ok` (src/app/page.tsx:212-214, :234-236, :334-336), while the delete and the rename do not check it. The created task that the server returns is a parameter.
- Each helper is modelled as a function of the forest it is given. The page applies it to the `tasks` captured when the handler was created (src/app/page.tsx:217, :264, :285, :318, :393), not to the state current when the response arrives. So with two overlapping requests the first update is lost from the mirror; that lost update is not modelled.
- `src/app/layout.tsx` is not part of this model.
- Ids are unbounded integers. JavaScript numbers are doubles; the model assumes the ids stay below 2^53, so rounding never applies.
- `task.children || []` is not modelled separately: children are always a sequence, and a missing list reads as the empty one.
- The second copy of `addSubtaskToParent` (src/app/page.tsx:360-382) is the same code as the first, so both are the one `Mirror.AddSubtask`.
- AddProofs.AddSubtaskLookupParent: states the appended child only for the first node, in pre-order, that carries the parent id. For the other matching nodes, `AddSubtaskIds` counts the subtask's copies but does not say where they hang.
- Mirror.AddSubtask, Mirror.RemoveTask, Mirror.UpdateTitle: their own contracts state only lengths and that fields are kept. The full behaviour is in the `AddProofs`, `DeleteProofs` and `RenameProofs` lemmas, so that other proofs do not carry it along.
- Mirror.MoveTargets: lists the options only. The placeholder option, whose empty value the select turns into 0 (src/app/page.tsx:37, :41), is the `Placeholder` case of `Mirror.Choice`, covered by `MoveProofs.DialogMoveOutcome`.
- MoveProofs.DialogMoveOutcome: the placeholder case is stated only for forests without id 0 (that no task has id 0 is an assumption about the server's ids, not something any shown file enforces). What the server does with parent id 0 is not modelled; its update route answers a failed update with status 200 (src/app/api/tasks/[id]/route.ts:52-55), so the page's move still runs.

## Findings

| source | as written | input that shows it | evidently intended | confidence | as-written member | corrected member |
|---|---|---|---|---|---|---|
| src/app/page.tsx:384-387 | The recorded node is re-attached unchanged, so its `parentId` still names the old parent. The server's PUT stores the new `parentId`, so the mirror and the server disagree, and the mirrored node sits under a task its own `parentId` does not name | Roots 1 "Plan trip" (with child 3 "Choose airline", parentId 1) and 2 "Book hotel"; move 3 to 2. Task 3 ends up under 2 with parentId 1 (the member proves this for any three distinct ids) | The moved node's `parentId` becomes the new parent's id, as the server records it | medium, not executed | MoveProofs.MoveSubtaskStaleExample | MoveProofs.MoveReparentedWellLinked |

=== FILE: add_proofs.dfy ===
/** What adding a task does to the mirrored forest: which ids it brings in,
    where the new node lands, and that deleting it again undoes the add. */
module AddProofs {
  import opened Wrappers
  import opened Tasks
  import opened Mirror
  import opened DeleteProofs

  lemma {:induction false} RepAdd(m: multiset<int>, a: nat, b: nat)
    ensures Rep(m, a + b) == Rep(m, a) + Rep(m, b)
  {
    if a != 0 {
      RepAdd(m, a - 1, b);
    }
  }

  lemma AddSubtaskHeadTail(ts: Forest, p: int, s: Task)
    requires ts != []
    ensures AddSubtask(ts, p, s)[0] == AddUnder(ts[0], p, s)
    ensures AddSubtask(ts, p, s)[1..] == AddSubtask(ts[1..], p, s)
  {
  }

  /** The add brings in one copy of the subtask's ids per node it attached it to. */
  lemma {:induction false} AddSubtaskIds(ts: Forest, p: int, s: Task)
    ensures IdsOf(AddSubtask(ts, p, s)) == IdsOf(ts) + Rep(IdsOf([s]), TopMatches(ts, p))
    decreases ts
  {
    if ts != [] {
      var t, rest := ts[0], ts[1..];
      var r := AddSubtask(ts, p, s);
      var m := IdsOf([s]);
      var k := if t.id == p then 1 else TopMatches(t.children, p);
      var j := TopMatches(rest, p);
      AddSubtaskHeadTail(ts, p, s);
      IdsOfHeadTail(r);
      IdsOfHeadTail(ts);
      AddUnderIds(t, p, s);
      AddSubtaskIds(rest, p, s);
      assert TopMatches(ts, p) == k + j;
      RepAdd(m, k, j);
      Regroup(IdsOf([t]), IdsOf(rest), Rep(m, k), Rep(m, j));
    }
  }

  /** The add at one node. */
  lemma {:induction false} AddUnderIds(t: Task, p: int, s: Task)
    ensures IdsOf([AddUnder(t, p, s)]) == IdsOf([t]) + Rep(IdsOf([s]), if t.id == p then 1 else TopMatches(t.children, p))
    decreases t, 1
  {
    IdsOfSingle(t);
    IdsOfSingle(AddUnder(t, p, s));
    if t.id == p {
      IdsOfAppend(t.children, [s]);
      assert Rep(IdsOf([s]), 1) == IdsOf([s]);
    } else {
      AddSubtaskIds(t.children, p, s);
    }
  }

  /** The add keeps the top-level tasks, their fields and their order. */
  lemma {:induction false} AddSubtaskHeads(ts: Forest, p: int, s: Task)
    ensures |AddSubtask(ts, p, s)| == |ts|
    ensures forall i :: 0 <= i < |ts| ==>
      var r := AddSubtask(ts, p, s);
      r[i].id == ts[i].id && r[i].title == ts[i].title && r[i].parentId == ts[i].parentId
  {
    if ts != [] {
      var r := AddSubtask(ts, p, s);
      AddSubtaskHeadTail(ts, p, s);
      AddSubtaskHeads(ts[1..], p, s);
      forall i | 0 < i < |ts|
        ensures r[i].id == ts[i].id && r[i].title == ts[i].title && r[i].parentId == ts[i].parentId
      {
        assert r[i] == r[1..][i - 1];
      }
    }
  }

  /** Attaching under an id that is not there changes nothing. */
  lemma {:induction false} AddSubtaskAbsent(ts: Forest, p: int, s: Task)
    requires p !in IdsOf(ts)
    ensures AddSubtask(ts, p, s) == ts
    decreases ts
  {
    if ts != [] {
      assert p !in IdsOf([ts[0]]) && p !in IdsOf(ts[1..]) by {
        IdsOfHeadTail(ts);
      }
      AddSubtaskHeadTail(ts, p, s);
      AddUnderAbsent(ts[0], p, s);
      AddSubtaskAbsent(ts[1..], p, s);
      SameHeadTail(AddSubtask(ts, p, s), ts);
    }
  }

  lemma {:induction false} AddUnderAbsent(t: Task, p: int, s: Task)
    requires p !in IdsOf([t])
    ensures AddUnder(t, p, s) == t
    decreases t, 1
  {
    IdsOfSingle(t);
    AddSubtaskAbsent(t.children, p, s);
  }

  /** With unique ids and the parent present, the forest grows by exactly the
      subtask and its own descendants. */
  lemma AddSubtaskGrowsByOne(ts: Forest, p: int, s: Task)
    requires UniqueIds(ts)
    requires p in IdsOf(ts)
    ensures IdsOf(AddSubtask(ts, p, s)) == IdsOf(ts) + IdsOf([s])
    ensures Size(AddSubtask(ts, p, s)) == Size(ts) + Size([s])
  {
    AddSubtaskIds(ts, p, s);
    UniqueTopMatch(ts, p);
    assert Rep(IdsOf([s]), 1) == IdsOf([s]);
  }

  /** Deleting the added subtask's id undoes the add, whatever the forest. */
  lemma {:induction false} RemoveAfterAdd(ts: Forest, p: int, s: Task)
    ensures RemoveTask(AddSubtask(ts, p, s), s.id) == RemoveTask(ts, s.id)
    decreases ts
  {
    if ts != [] {
      var r := AddSubtask(ts, p, s);
      AddSubtaskHeadTail(ts, p, s);
      RemoveTaskHeadTail(ts, s.id);
      RemoveTaskHeadTail(r, s.id);
      RemoveUnderAfterAdd(ts[0], p, s);
      RemoveAfterAdd(ts[1..], p, s);
    }
  }

  lemma {:induction false} RemoveUnderAfterAdd(t: Task, p: int, s: Task)
    ensures RemoveHead(AddUnder(t, p, s), s.id) == RemoveHead(t, s.id)
    decreases t, 1
  {
    if t.id != s.id {
      if t.id == p {
        RemoveTaskAppend(t.children, [s], s.id);
        RemoveTaskHeadTail([s], s.id);
        assert [s][1..] == [];
        assert RemoveTask([s], s.id) == [];
        assert RemoveTask(t.children + [s], s.id) == RemoveTask(t.children, s.id);
      } else {
        RemoveAfterAdd(t.children, p, s);
      }
    }
  }

  /** A subtask with a fresh id is removed again by deleting that id. */
  lemma AddThenRemoveFresh(ts: Forest, p: int, s: Task)
    requires s.id !in IdsOf(ts)
    ensures RemoveTask(AddSubtask(ts, p, s), s.id) == ts
  {
    RemoveAfterAdd(ts, p, s);
    RemoveTaskSpec(ts, s.id);
  }

  /** The first node with id `p` ends up with the subtask as its last child,
      its other fields untouched. */
  lemma {:induction false} AddSubtaskLookupParent(ts: Forest, p: int, s: Task)
    requires p in IdsOf(ts)
    ensures Lookup(AddSubtask(ts, p, s), p) ==
      Some(Lookup(ts, p).value.(children := Lookup(ts, p).value.children + [s]))
  {
    var t := ts[0];
    AddSubtaskHeadTail(ts, p, s);
    IdsOfHeadTail(ts);
    if t.id != p {
      IdsOfSingle(t);
      if p in IdsOf(t.children) {
        AddSubtaskLookupParent(t.children, p, s);
      } else {
        AddSubtaskAbsent(t.children, p, s);
        AddSubtaskLookupParent(ts[1..], p, s);
      }
    }
  }

  /** Once the parent is present, the subtask is a node of the result. */
  lemma {:induction false} AddSubtaskOccurs(ts: Forest, p: int, s: Task)
    requires p in IdsOf(ts)
    ensures Occurs(s, AddSubtask(ts, p, s))
  {
    var r := AddSubtask(ts, p, s);
    var n := Lookup(r, p);
    AddSubtaskLookupParent(ts, p, s);
    assert n.Some?;
    var c := n.value.children;
    OccursElement(c, |c| - 1);
    OccursInChild(s, n.value, r);
  }

  /** A node of a child list of a node of the forest is a node of the forest. */
  lemma {:induction false} OccursInChild(n: Task, parent: Task, ts: Forest)
    requires Occurs(n, parent.children)
    requires Occurs(parent, ts)
    ensures Occurs(n, ts)
  {
    if ts[0] != parent {
      if Occurs(parent, ts[0].children) {
        OccursInChild(n, parent, ts[0].children);
      } else {
        OccursInChild(n, parent, ts[1..]);
      }
    }
  }

  /** Attaching a subtask whose links point at its new parent keeps every
      parent link right. */
  lemma {:induction false} AddSubtaskWellLinked(ts: Forest, q: Option<int>, p: int, s: Task)
    requires WellLinked(ts, q)
    requires WellLinked([s], Some(p))
    ensures WellLinked(AddSubtask(ts, p, s), q)
    decreases ts
  {
    if ts != [] {
      var r := AddSubtask(ts, p, s);
      AddSubtaskHeadTail(ts, p, s);
      WellLinkedHeadTail(ts, q);
      WellLinkedHeadTail(r, q);
      AddUnderWellLinked(ts[0], q, p, s);
      AddSubtaskWellLinked(ts[1..], q, p, s);
    }
  }

  lemma {:induction false} AddUnderWellLinked(t: Task, q: Option<int>, p: int, s: Task)
    requires WellLinked([t], q)
    requires WellLinked([s], Some(p))
    ensures WellLinked([AddUnder(t, p, s)], q)
    decreases t, 1
  {
    assert [t][1..] == [];
    assert [AddUnder(t, p, s)][1..] == [];
    if t.id == p {
      WellLinkedAppend(t.children, [s], Some(p));
    } else {
      AddSubtaskWellLinked(t.children, Some(t.id), p, s);
    }
  }

  /** Adding a subtree of fresh, distinct ids keeps ids unique. */
  lemma AddSubtaskUnique(ts: Forest, p: int, s: Task)
    requires UniqueIds(ts) && UniqueIds([s])
    requires IdsOf([s]) !! IdsOf(ts)
    ensures UniqueIds(AddSubtask(ts, p, s))
  {
    if p !in IdsOf(ts) {
      AddSubtaskAbsent(ts, p, s);
      return;
    }
    AddSubtaskGrowsByOne(ts, p, s);
    var r := AddSubtask(ts, p, s);
    forall x ensures IdsOf(r)[x] <= 1 {
      assert IdsOf(r)[x] == IdsOf(ts)[x] + IdsOf([s])[x];
    }
  }

  /** The root-level add, undone by deleting the new task's id. */
  lemma RemoveAfterAppendRoot(ts: Forest, t: Task)
    ensures RemoveTask(AppendRoot(ts, t), t.id) == RemoveTask(ts, t.id)
    ensures t.id !in IdsOf(ts) ==> RemoveTask(AppendRoot(ts, t), t.id) == ts
  {
    RemoveTaskAppend(ts, [t], t.id);
    assert RemoveTask([t], t.id) == [];
    RemoveTaskSpec(ts, t.id);
  }

  /** A freshly created root task keeps the root list well linked and its ids unique. */
  lemma AppendRootInvariants(ts: Forest, t: Task)
    requires WellLinked(ts, None) && UniqueIds(ts)
    requires t.parentId == None && t.children == []
    requires t.id !in IdsOf(ts)
    ensures WellLinked(AppendRoot(ts, t), None)
    ensures UniqueIds(AppendRoot(ts, t))
  {
    WellLinkedAppend(ts, [t], None);
    IdsOfSingle(t);
    var r := AppendRoot(ts, t);
    forall x ensures IdsOf(r)[x] <= 1 {
      assert IdsOf(r)[x] == IdsOf(ts)[x] + IdsOf([t])[x];
    }
  }
}

=== FILE: delete_proofs.dfy ===
/** What deleting a task does to the mirrored forest: the id is gone at every
    depth, the survivors keep their fields and order, and exactly the subtrees
    rooted at the deleted id disappear. */
module DeleteProofs {
  import opened Wrappers
  import opened Tasks
  import opened Mirror

  /** What the delete makes of one top-level task: nothing, or the task with
      its children pruned. */
  function RemoveHead(t: Task, x: int): Forest
  {
    if t.id != x then [PruneNode(t, x)] else []
  }

  lemma RemoveTaskHeadTail(ts: Forest, x: int)
    requires ts != []
    ensures RemoveTask(ts, x) == RemoveHead(ts[0], x) + RemoveTask(ts[1..], x)
  {
  }

  /** Reference definition of a cascading delete on the pre-order listing: keep
      the entries that neither carry `x` nor have `x` among their ancestors. */
  function Keep(es: seq<Entry>, x: int): seq<Entry>
  {
    if es == [] then []
    else (if es[0].id != x && x !in es[0].ancestors then [es[0]] else []) + Keep(es[1..], x)
  }

  lemma {:induction false} KeepAppend(a: seq<Entry>, b: seq<Entry>, x: int)
    ensures Keep(a + b, x) == Keep(a, x) + Keep(b, x)
  {
    if a == [] {
      assert a + b == b;
    } else {
      assert (a + b)[0] == a[0];
      assert (a + b)[1..] == a[1..] + b;
      KeepAppend(a[1..], b, x);
    }
  }

  /** Entries all of whose ancestors include `x` are all dropped. */
  lemma {:induction false} KeepNone(es: seq<Entry>, x: int)
    requires forall e :: e in es ==> x in e.ancestors
    ensures Keep(es, x) == []
  {
    if es != [] {
      assert es[0] in es;
      KeepNone(es[1..], x);
    }
  }

  lemma KeepBelowMatch(ts: Forest, path: seq<int>, x: int)
    requires x in path
    ensures Keep(Flatten(ts, path), x) == []
  {
    forall e | e in Flatten(ts, path) ensures x in e.ancestors {
      FlattenAncestors(ts, path, e);
    }
    KeepNone(Flatten(ts, path), x);
  }

  /** The delete equals the reference definition: in pre-order, the result lists
      exactly the input's nodes with no `x` on their path, with their id, title
      and parentId, in their original order. */
  lemma {:induction false} RemoveTaskFlatten(ts: Forest, x: int, path: seq<int>)
    requires x !in path
    ensures Flatten(RemoveTask(ts, x), path) == Keep(Flatten(ts, path), x)
    decreases ts
  {
    if ts != [] {
      var t, rest := ts[0], ts[1..];
      RemoveTaskHeadTail(ts, x);
      FlattenAppend(RemoveHead(t, x), RemoveTask(rest, x), path);
      FlattenHeadTail(ts, path);
      KeepAppend(Flatten([t], path), Flatten(rest, path), x);
      RemoveHeadFlatten(t, x, path);
      RemoveTaskFlatten(rest, x, path);
    }
  }

  lemma {:induction false} RemoveHeadFlatten(t: Task, x: int, path: seq<int>)
    requires x !in path
    ensures Flatten(RemoveHead(t, x), path) == Keep(Flatten([t], path), x)
    decreases t, 1
  {
    var self := [Entry(t.id, t.title, t.parentId, path)];
    var below := Flatten(t.children, path + [t.id]);
    FlattenHeadTail([t], path);
    KeepAppend(self, below, x);
    if t.id == x {
      KeepBelowMatch(t.children, path + [t.id], x);
      assert Keep(self, x) == [];
    } else {
      RemoveTaskFlatten(t.children, x, path + [t.id]);
      FlattenHeadTail([PruneNode(t, x)], path);
      assert Keep(self, x) == self;
    }
  }

  /** The deleted id occurs nowhere in the result. */
  lemma {:induction false} RemoveTaskGone(ts: Forest, x: int)
    ensures x !in IdsOf(RemoveTask(ts, x))
    decreases ts
  {
    if ts != [] {
      RemoveTaskHeadTail(ts, x);
      IdsOfAppend(RemoveHead(ts[0], x), RemoveTask(ts[1..], x));
      RemoveHeadGone(ts[0], x);
      RemoveTaskGone(ts[1..], x);
    }
  }

  lemma {:induction false} RemoveHeadGone(t: Task, x: int)
    ensures x !in IdsOf(RemoveHead(t, x))
    decreases t, 1
  {
    if t.id != x {
      IdsOfSingle(PruneNode(t, x));
      RemoveTaskGone(t.children, x);
    }
  }

  /** Deleting an id that is not there changes nothing. */
  lemma {:induction false} RemoveTaskAbsent(ts: Forest, x: int)
    requires x !in IdsOf(ts)
    ensures RemoveTask(ts, x) == ts
  {
    if ts != [] {
      var t := ts[0];
      IdsOfHeadTail(ts);
      IdsOfSingle(t);
      RemoveTaskAbsent(t.children, x);
      RemoveTaskAbsent(ts[1..], x);
      assert RemoveHead(t, x) == [t];
      RemoveTaskHeadTail(ts, x);
      assert [t] + ts[1..] == ts;
    }
  }

  /** The delete's promise: the id is gone, no id is added, and deleting an id
      that is not there changes nothing. */
  lemma RemoveTaskSpec(ts: Forest, x: int)
    ensures x !in IdsOf(RemoveTask(ts, x))
    ensures IdsOf(RemoveTask(ts, x)) <= IdsOf(ts)
    ensures x !in IdsOf(ts) ==> RemoveTask(ts, x) == ts
  {
    RemoveTaskGone(ts, x);
    RemoveTaskIds(ts, x);
    if x !in IdsOf(ts) {
      RemoveTaskAbsent(ts, x);
    }
  }

  /** Deleting twice is deleting once. */
  lemma RemoveTaskIdempotent(ts: Forest, x: int)
    ensures RemoveTask(RemoveTask(ts, x), x) == RemoveTask(ts, x)
  {
    RemoveTaskGone(ts, x);
    RemoveTaskAbsent(RemoveTask(ts, x), x);
  }

  /** The ids lost are exactly those of the subtrees rooted at the deleted id. */
  lemma {:induction false} RemoveTaskIds(ts: Forest, x: int)
    ensures IdsOf(ts) == IdsOf(RemoveTask(ts, x)) + Cut(ts, x)
    decreases ts
  {
    if ts != [] {
      var t, rest := ts[0], ts[1..];
      var h := RemoveHead(t, x);
      var c := if t.id == x then IdsOf([t]) else Cut(t.children, x);
      RemoveTaskHeadTail(ts, x);
      IdsOfAppend(h, RemoveTask(rest, x));
      IdsOfHeadTail(ts);
      RemoveHeadIds(t, x);
      RemoveTaskIds(rest, x);
      assert Cut(ts, x) == c + Cut(rest, x);
      Regroup(IdsOf(h), IdsOf(RemoveTask(rest, x)), c, Cut(rest, x));
    }
  }

  lemma {:induction false} RemoveHeadIds(t: Task, x: int)
    ensures IdsOf([t]) == IdsOf(RemoveHead(t, x)) + (if t.id == x then IdsOf([t]) else Cut(t.children, x))
    decreases t, 1
  {
    if t.id != x {
      IdsOfSingle(t);
      IdsOfSingle(PruneNode(t, x));
      RemoveTaskIds(t.children, x);
    }
  }

  /** Cascading delete with unique ids: the node with id `x` and all of its
      descendants go, and every other node stays. */
  lemma RemoveTaskUnique(ts: Forest, x: int)
    requires UniqueIds(ts)
    requires x in IdsOf(ts)
    ensures IdsOf(ts) == IdsOf(RemoveTask(ts, x)) + IdsOf([Lookup(ts, x).value])
    ensures UniqueIds(RemoveTask(ts, x))
  {
    RemoveTaskIds(ts, x);
    CutOfUnique(ts, x);
    UniqueIdsSub(RemoveTask(ts, x), ts);
  }

  /** Deleting keeps every remaining parent link right. */
  lemma {:induction false} RemoveTaskWellLinked(ts: Forest, x: int, parent: Option<int>)
    requires WellLinked(ts, parent)
    ensures WellLinked(RemoveTask(ts, x), parent)
    decreases ts
  {
    if ts != [] {
      RemoveTaskHeadTail(ts, x);
      WellLinkedAppend(RemoveHead(ts[0], x), RemoveTask(ts[1..], x), parent);
      WellLinkedHeadTail(ts, parent);
      RemoveHeadWellLinked(ts[0], x, parent);
      RemoveTaskWellLinked(ts[1..], x, parent);
    }
  }

  lemma {:induction false} RemoveHeadWellLinked(t: Task, x: int, parent: Option<int>)
    requires WellLinked([t], parent)
    ensures WellLinked(RemoveHead(t, x), parent)
    decreases t, 1
  {
    if t.id != x {
      RemoveTaskWellLinked(t.children, x, Some(t.id));
      assert [PruneNode(t, x)][1..] == [];
      assert [t][1..] == [];
    }
  }

  /** Deleting from a concatenation deletes from both halves. */
  lemma {:induction false} RemoveTaskAppend(a: Forest, b: Forest, x: int)
    ensures RemoveTask(a + b, x) == RemoveTask(a, x) + RemoveTask(b, x)
  {
    if a == [] {
      assert a + b == b;
    } else {
      var t, rest := a[0], a[1..];
      assert a + b == [t] + (rest + b);
      RemoveTaskCons(t, rest, x);
      RemoveTaskCons(t, rest + b, x);
      RemoveTaskAppend(rest, b, x);
      SeqAssoc(RemoveHead(t, x), RemoveTask(rest, x), RemoveTask(b, x));
    }
  }

  lemma RemoveTaskCons(t: Task, rest: Forest, x: int)
    ensures RemoveTask([t] + rest, x) == RemoveHead(t, x) + RemoveTask(rest, x)
  {
    assert ([t] + rest)[0] == t;
    assert ([t] + rest)[1..] == rest;
  }

  lemma SeqAssoc<T>(a: seq<T>, b: seq<T>, c: seq<T>)
    ensures a + (b + c) == (a + b) + c
  {
  }
}

=== FILE: mirror.dfy ===
/** The copy-on-write helpers `Page` applies to its task list once its request
    to the task API has resolved (src/app/page.tsx). Each returns a new forest
    and leaves the input alone. */
module Mirror {
  import opened Wrappers
  import opened Tasks

  /** Adding a root task: the created task goes after the existing roots. */
  function AppendRoot(ts: Forest, t: Task): (r: Forest)
    ensures |r| == |ts| + 1 && r[..|ts|] == ts && r[|ts|] == t
    ensures IdsOf(r) == IdsOf(ts) + IdsOf([t])
    ensures Occurs(t, r)
  {
    IdsOfAppend(ts, [t]);
    OccursAppend(t, ts, [t]);
    ts + [t]
  }

  /** `addSubtaskToParent`: every node with id `p` that has no ancestor with
      id `p` gets `s` as its new last child (with unique ids: the one node with
      that id); the walk does not go below such a node. */
  function AddSubtask(ts: Forest, p: int, s: Task): (r: Forest)
    ensures |r| == |ts|
  {
    if ts == [] then [] else [AddUnder(ts[0], p, s)] + AddSubtask(ts[1..], p, s)
  }

  /** The per-task callback of `addSubtaskToParent`. */
  function AddUnder(t: Task, p: int, s: Task): (r: Task)
    ensures r.id == t.id && r.title == t.title && r.parentId == t.parentId
    ensures t.id == p ==> r.children == t.children + [s]
  {
    if t.id == p then t.(children := t.children + [s])
    else t.(children := AddSubtask(t.children, p, s))
  }

  /** `removeTaskById`: drop the tasks with id `x`, then prune the children of
      the ones kept, so every node with id `x` goes with its subtree. */
  function RemoveTask(ts: Forest, x: int): (r: Forest)
    ensures |r| <= |ts|
  {
    if ts == [] then []
    else (if ts[0].id != x then [PruneNode(ts[0], x)] else []) + RemoveTask(ts[1..], x)
  }

  /** The per-task map callback of `removeTaskById`. */
  function PruneNode(t: Task, x: int): (r: Task)
    ensures r.id == t.id && r.title == t.title && r.parentId == t.parentId
    ensures |r.children| <= |t.children|
  {
    t.(children := RemoveTask(t.children, x))
  }

  /** `updateTaskTitle`: every node with id `x` that has no ancestor with id
      `x` gets the new title (with unique ids: the one node with that id); the
      walk does not go below such a node. */
  function UpdateTitle(ts: Forest, x: int, title: string): (r: Forest)
    ensures |r| == |ts|
  {
    if ts == [] then [] else [RenameNode(ts[0], x, title)] + UpdateTitle(ts[1..], x, title)
  }

  /** The per-task callback of `updateTaskTitle`. */
  function RenameNode(t: Task, x: int, title: string): (r: Task)
    ensures r.id == t.id && r.parentId == t.parentId
    ensures t.id == x ==> r == t.(title := title)
    ensures t.id != x ==> r.title == t.title && |r.children| == |t.children|
  {
    if t.id == x then t.(title := title)
    else t.(children := UpdateTitle(t.children, x, title))
  }

  /** Some sibling has id `x`. */
  predicate HasHead(ts: Forest, x: int)
  {
    exists i :: 0 <= i < |ts| && ts[i].id == x
  }

  /** The filter pass of `removeSubtaskById` over one sibling list: each sibling
      with id `x` is recorded in turn, so the last one wins; with none, the
      recorded value `m` stays. */
  function LastMatch(ts: Forest, x: int, m: Option<Task>): (r: Option<Task>)
    ensures HasHead(ts, x) ==>
      exists j :: 0 <= j < |ts| && ts[j].id == x && r == Some(ts[j]) &&
        forall k :: j < k < |ts| ==> ts[k].id != x
    ensures !HasHead(ts, x) ==> r == m
  {
    if ts == [] then m
    else
      var m' := if ts[0].id == x then Some(ts[0]) else m;
      var r := LastMatch(ts[1..], x, m');
      HasHeadTail(ts, x);
      r
  }

  /** Some sibling that is not itself `x` has `x` in its subtree. */
  predicate InSurvivor(ts: Forest, x: int)
  {
    ts != [] && ((ts[0].id != x && x in IdsOf(ts[0].children)) || InSurvivor(ts[1..], x))
  }

  /** `n` is a node of `ts` with id `x`. */
  predicate FoundIn(n: Option<Task>, ts: Forest, x: int)
  {
    n.Some? && n.value.id == x && Occurs(n.value, ts)
  }

  /** The map pass of `removeSubtaskById`: siblings with id `x` are skipped, the
      others are copied with their children pruned, recording any removed node
      found below them, left to right. */
  function Prune(ts: Forest, x: int, m: Option<Task>): (r: (Forest, Option<Task>))
    ensures r.0 == RemoveTask(ts, x)
    ensures r.1 == m || FoundIn(r.1, ts, x)
    ensures InSurvivor(ts, x) ==> FoundIn(r.1, ts, x)
    ensures !InSurvivor(ts, x) ==> r.1 == m
    decreases ts, 0
  {
    if ts == [] then ([], m)
    else if ts[0].id == x then
      var (rest, m2) := Prune(ts[1..], x, m);
      assert RemoveTask(ts, x) == rest;
      (rest, m2)
    else
      var (kids, m1) := RemoveSubtask(ts[0].children, x, m);
      var (rest, m2) := Prune(ts[1..], x, m1);
      assert FoundIn(m1, ts[0].children, x) ==> FoundIn(m1, ts, x);
      assert FoundIn(m2, ts[1..], x) ==> FoundIn(m2, ts, x);
      ([ts[0].(children := kids)] + rest, m2)
  }

  /** `removeSubtaskById` with its closure variable made explicit: the pruned
      forest, and the node recorded for the move (the input `m` if none). */
  function RemoveSubtask(ts: Forest, x: int, m: Option<Task>): (r: (Forest, Option<Task>))
    ensures r.0 == RemoveTask(ts, x)
    ensures x !in IdsOf(ts) ==> r.1 == m
    ensures x in IdsOf(ts) ==> FoundIn(r.1, ts, x)
    decreases ts, 1
  {
    var m' := LastMatch(ts, x, m);
    var r := Prune(ts, x, m');
    SurvivorOrHead(ts, x);
    assert HasHead(ts, x) ==> FoundIn(m', ts, x) by {
      if HasHead(ts, x) {
        var j :| 0 <= j < |ts| && ts[j].id == x && m' == Some(ts[j]);
        OccursElement(ts, j);
      }
    }
    r
  }

  /** An id in the forest is on the top level or below a sibling that does not
      carry it. */
  lemma {:induction false} SurvivorOrHead(ts: Forest, x: int)
    ensures x in IdsOf(ts) <==> HasHead(ts, x) || InSurvivor(ts, x)
  {
    if ts != [] {
      SurvivorOrHead(ts[1..], x);
      HasHeadTail(ts, x);
    }
  }

  /** A sibling with id `x` is the first one or among the rest. */
  lemma HasHeadTail(ts: Forest, x: int)
    requires ts != []
    ensures HasHead(ts, x) <==> ts[0].id == x || HasHead(ts[1..], x)
  {
    if HasHead(ts[1..], x) {
      var i :| 0 <= i < |ts[1..]| && ts[1..][i].id == x;
      assert ts[i + 1].id == x;
    }
    if HasHead(ts, x) && ts[0].id != x {
      var i :| 0 <= i < |ts| && ts[i].id == x;
      assert ts[1..][i - 1].id == x;
    }
  }

  /** `updateSubtaskParent` as written: cut the node out, then re-insert the
      recorded node unchanged under `np`; if nothing was cut, the input is
      returned. */
  function MoveSubtask(ts: Forest, x: int, np: int): (r: Forest)
    ensures x !in IdsOf(ts) ==> r == ts
    ensures x in IdsOf(ts) ==>
      exists n :: Occurs(n, ts) && n.id == x && r == AddSubtask(RemoveTask(ts, x), np, n)
  {
    var (rest, found) := RemoveSubtask(ts, x, None);
    if found.Some? then AddSubtask(rest, np, found.value) else ts
  }

  /** The move with the recorded node's `parentId` set to its new parent, as the
      server records it. */
  function MoveReparented(ts: Forest, x: int, np: int): (r: Forest)
    ensures x !in IdsOf(ts) ==> r == ts
    ensures x in IdsOf(ts) ==>
      exists n :: Occurs(n, ts) && n.id == x &&
        r == AddSubtask(RemoveTask(ts, x), np, n.(parentId := Some(np)))
  {
    var (rest, found) := RemoveSubtask(ts, x, None);
    if found.Some? then AddSubtask(rest, np, found.value.(parentId := Some(np))) else ts
  }

  /** `a` can be obtained from `b` by dropping elements. */
  predicate Subsequence(a: Forest, b: Forest)
  {
    a == [] || (b != [] && ((a[0] == b[0] && Subsequence(a[1..], b[1..])) || Subsequence(a, b[1..])))
  }

  /** The move dialog's options: the root tasks other than the one being moved,
      in the order of the root list. */
  function MoveTargets(roots: Forest, taskId: int): (r: Forest)
    ensures forall t :: t in r <==> t in roots && t.id != taskId
    ensures Subsequence(r, roots)
  {
    if roots == [] then []
    else
      var rest := MoveTargets(roots[1..], taskId);
      if roots[0].id != taskId then
        assert ([roots[0]] + rest)[1..] == rest;
        [roots[0]] + rest
      else rest
  }

  /** Each listed root task is offered as often as it occurs among the roots. */
  lemma {:induction false} MoveTargetsCount(roots: Forest, taskId: int)
    ensures forall t :: multiset(MoveTargets(roots, taskId))[t] == (if t.id != taskId then multiset(roots)[t] else 0)
  {
    if roots != [] {
      var rest := MoveTargets(roots[1..], taskId);
      MoveTargetsCount(roots[1..], taskId);
      assert roots == [roots[0]] + roots[1..];
      assert multiset(roots) == multiset{roots[0]} + multiset(roots[1..]);
      if roots[0].id != taskId {
        assert multiset([roots[0]] + rest) == multiset{roots[0]} + multiset(rest);
      }
    }
  }

  /** What the select of the move dialog holds when its button is pressed:
      still its initial empty state, the placeholder option picked again
      (whose empty value reads as the number 0), or one of the listed tasks. */
  datatype Choice = Untouched | Placeholder | Picked(target: Task)

  /** `handleMoveSubtask` of the dialog followed by the page's move: nothing
      happens while no parent was chosen; otherwise the chosen value is sent
      as the new parent id. */
  function DialogMove(ts: Forest, x: int, c: Choice): (r: Forest)
    ensures c.Untouched? || x !in IdsOf(ts) ==> r == ts
  {
    match c
    case Untouched => ts
    case Placeholder => MoveSubtask(ts, x, 0)
    case Picked(t) => MoveSubtask(ts, x, t.id)
  }
}

=== FILE: move_proofs.dfy ===
/** What moving a task does to the mirrored forest, both as the page does it
    and with the moved node's parent link updated. */
module MoveProofs {
  import opened Wrappers
  import opened Tasks
  import opened Mirror
  import opened DeleteProofs
  import opened AddProofs

  /** Whatever the inputs, the move leaves everything outside the moved subtree
      as it was: deleting the moved id afterwards gives what deleting it before
      would have given. */
  lemma MoveKeepsRest(ts: Forest, x: int, np: int)
    ensures RemoveTask(MoveSubtask(ts, x, np), x) == RemoveTask(ts, x)
  {
    if x in IdsOf(ts) {
      var r := MoveSubtask(ts, x, np);
      var n :| Occurs(n, ts) && n.id == x && MoveSubtask(ts, x, np) == AddSubtask(RemoveTask(ts, x), np, n);
      RemoveAfterAdd(RemoveTask(ts, x), np, n);
      RemoveTaskIdempotent(ts, x);
    }
  }

  /** If the new parent does not survive the cut (it is absent, or inside the
      moved subtree), the moved subtree is dropped from the mirror. */
  lemma MoveLosesSubtree(ts: Forest, x: int, np: int)
    requires np !in IdsOf(RemoveTask(ts, x))
    ensures MoveSubtask(ts, x, np) == RemoveTask(ts, x)
  {
    if x in IdsOf(ts) {
      var r := MoveSubtask(ts, x, np);
      var n :| Occurs(n, ts) && n.id == x && r == AddSubtask(RemoveTask(ts, x), np, n);
      AddSubtaskAbsent(RemoveTask(ts, x), np, n);
    } else {
      RemoveTaskAbsent(ts, x);
    }
  }

  /** The move as the page does it keeps ids unique for every target: the
      moved subtree's ids leave with the cut and come back at most once. */
  lemma MoveSubtaskUnique(ts: Forest, x: int, np: int)
    requires UniqueIds(ts)
    ensures UniqueIds(MoveSubtask(ts, x, np))
  {
    if x in IdsOf(ts) {
      var r := MoveSubtask(ts, x, np);
      var rest := RemoveTask(ts, x);
      var n :| Occurs(n, ts) && n.id == x && r == AddSubtask(rest, np, n);
      UniqueOccursIsLookup(n, ts);
      RemoveTaskUnique(ts, x);
      assert IdsOf(ts) == IdsOf(rest) + IdsOf([n]);
      UniqueIdsSub([n], ts);
      forall y | y in IdsOf([n]) ensures y !in IdsOf(rest) {
        assert IdsOf(ts)[y] == IdsOf(rest)[y] + IdsOf([n])[y];
      }
      AddSubtaskUnique(rest, np, n);
    }
  }

  /** With unique ids, a target inside the moved subtree does not survive the
      cut, so the move drops the subtree. */
  lemma MoveIntoOwnSubtree(ts: Forest, x: int, np: int)
    requires UniqueIds(ts)
    requires x in IdsOf(ts)
    requires np in IdsOf([Lookup(ts, x).value])
    ensures np !in IdsOf(RemoveTask(ts, x))
    ensures MoveSubtask(ts, x, np) == RemoveTask(ts, x)
  {
    RemoveTaskUnique(ts, x);
    assert IdsOf(ts)[np] == IdsOf(RemoveTask(ts, x))[np] + IdsOf([Lookup(ts, x).value])[np];
    MoveLosesSubtree(ts, x, np);
  }

  /** Re-inserting a node with the same subtree ids as the one cut out, under a
      target outside the cut: ids are kept, the node is found again by its id,
      and it is the target's last child. */
  lemma MoveCore(ts: Forest, x: int, np: int, n': Task)
    requires UniqueIds(ts)
    requires x in IdsOf(ts) && np in IdsOf(ts)
    requires np !in IdsOf([Lookup(ts, x).value])
    requires n'.id == x && IdsOf([n']) == IdsOf([Lookup(ts, x).value])
    ensures var r := AddSubtask(RemoveTask(ts, x), np, n');
      && IdsOf(r) == IdsOf(ts)
      && UniqueIds(r)
      && Lookup(r, x) == Some(n')
      && LastChild(Lookup(r, np)) == Some(n')
  {
    var rest := RemoveTask(ts, x);
    var r := AddSubtask(rest, np, n');
    RemoveTaskUnique(ts, x);
    assert IdsOf(ts)[np] == IdsOf(rest)[np] + IdsOf([Lookup(ts, x).value])[np];
    assert np in IdsOf(rest);
    AddSubtaskGrowsByOne(rest, np, n');
    UniqueIdsSub(r, ts);
    AddSubtaskOccurs(rest, np, n');
    UniqueOccursIsLookup(n', r);
    AddSubtaskLookupParent(rest, np, n');
    LastChildOf(Lookup(r, np), n');
  }

  /** The last child of the looked-up task, if the task exists and has one. */
  function LastChild(p: Option<Task>): Option<Task>
  {
    if p.Some? && |p.value.children| > 0 then Some(p.value.children[|p.value.children| - 1]) else None
  }

  lemma LastChildOf(p: Option<Task>, n: Task)
    requires p.Some? && |p.value.children| > 0
    requires p.value.children[|p.value.children| - 1] == n
    ensures LastChild(p) == Some(n)
  {
  }

  /** The move as the page does it, with unique ids and a target outside the
      moved subtree: no id is lost or duplicated, and the moved node comes back
      whole — same title, same children, same (old) parentId — as the target's
      last child. */
  lemma MoveSubtaskPreserves(ts: Forest, x: int, np: int)
    requires UniqueIds(ts)
    requires x in IdsOf(ts) && np in IdsOf(ts)
    requires np !in IdsOf([Lookup(ts, x).value])
    ensures var r := MoveSubtask(ts, x, np);
      && IdsOf(r) == IdsOf(ts)
      && UniqueIds(r)
      && Lookup(r, x) == Lookup(ts, x)
      && LastChild(Lookup(r, np)) == Some(Lookup(ts, x).value)
  {
    var n :| Occurs(n, ts) && n.id == x && MoveSubtask(ts, x, np) == AddSubtask(RemoveTask(ts, x), np, n);
    UniqueOccursIsLookup(n, ts);
    MoveCore(ts, x, np, n);
  }

  /** The corrected move under the same conditions: the same guarantees, and
      the moved node's parentId is the new parent. */
  lemma MoveReparentedPreserves(ts: Forest, x: int, np: int)
    requires UniqueIds(ts)
    requires x in IdsOf(ts) && np in IdsOf(ts)
    requires np !in IdsOf([Lookup(ts, x).value])
    ensures var r := MoveReparented(ts, x, np);
      && IdsOf(r) == IdsOf(ts)
      && UniqueIds(r)
      && Lookup(r, x) == Some(Lookup(ts, x).value.(parentId := Some(np)))
      && LastChild(Lookup(r, np)) == Some(Lookup(ts, x).value.(parentId := Some(np)))
  {
    var n :| Occurs(n, ts) && n.id == x &&
      MoveReparented(ts, x, np) == AddSubtask(RemoveTask(ts, x), np, n.(parentId := Some(np)));
    UniqueOccursIsLookup(n, ts);
    IdsOfSingle(n);
    IdsOfSingle(n.(parentId := Some(np)));
    MoveCore(ts, x, np, n.(parentId := Some(np)));
  }

  /** The corrected move keeps every parent link right, whatever the inputs. */
  lemma MoveReparentedWellLinked(ts: Forest, x: int, np: int)
    requires WellLinked(ts, None)
    ensures WellLinked(MoveReparented(ts, x, np), None)
  {
    if x in IdsOf(ts) {
      var r := MoveReparented(ts, x, np);
      var n :| Occurs(n, ts) && n.id == x &&
        MoveReparented(ts, x, np) == AddSubtask(RemoveTask(ts, x), np, n.(parentId := Some(np)));
      var n' := n.(parentId := Some(np));
      RemoveTaskWellLinked(ts, x, None);
      WellLinkedOccurs(n, ts, None);
      assert [n'][1..] == [];
      assert WellLinked([n'], Some(np));
      AddSubtaskWellLinked(RemoveTask(ts, x), None, np, n');
    }
  }

  lemma {:induction false} WellLinkedElement(cs: Forest, q: Option<int>, i: int)
    requires WellLinked(cs, q)
    requires 0 <= i < |cs|
    ensures cs[i].parentId == q
  {
    if i > 0 {
      WellLinkedElement(cs[1..], q, i - 1);
    }
  }

  /** The move as the page does it breaks the parent links whenever the node
      really changes parent: its stale parentId no longer names the node it
      hangs under. */
  lemma MoveSubtaskStaleParent(ts: Forest, x: int, np: int)
    requires UniqueIds(ts)
    requires x in IdsOf(ts) && np in IdsOf(ts)
    requires np !in IdsOf([Lookup(ts, x).value])
    requires Lookup(ts, x).value.parentId != Some(np)
    ensures !WellLinked(MoveSubtask(ts, x, np), None)
  {
    var r := MoveSubtask(ts, x, np);
    MoveSubtaskPreserves(ts, x, np);
    if WellLinked(r, None) {
      LastChildLinked(r, np);
    }
  }

  /** In a well-linked forest the last child of the node found for `np` names
      `np` as its parent. */
  lemma LastChildLinked(r: Forest, np: int)
    requires WellLinked(r, None)
    requires LastChild(Lookup(r, np)).Some?
    ensures LastChild(Lookup(r, np)).value.parentId == Some(np)
  {
    var p := Lookup(r, np).value;
    WellLinkedOccurs(p, r, None);
    WellLinkedElement(p.children, Some(p.id), |p.children| - 1);
  }

  /** Moving a subtask ("Choose airline", id `c`, under root `a`) to the other
      root `b`: the page's mirror ends up with a node under `b` whose parentId
      still says `a`. */
  lemma MoveSubtaskStaleExample(a: int, b: int, c: int)
    requires a != b && b != c && a != c
    ensures var ts := [Task(a, "Plan trip", None, [Task(c, "Choose airline", Some(a), [])]),
                       Task(b, "Book hotel", None, [])];
      WellLinked(ts, None) && !WellLinked(MoveSubtask(ts, c, b), None)
  {
    var ct := Task(c, "Choose airline", Some(a), []);
    var at := Task(a, "Plan trip", None, [ct]);
    var bt := Task(b, "Book hotel", None, []);
    var ts := [at, bt];
    IdsOfSingle(ct);
    IdsOfSingle(at);
    IdsOfSingle(bt);
    assert ts[1..] == [bt];
    assert IdsOf(ts) == multiset{a, c, b};
    assert Lookup(ts, c) == Some(ct);
    assert WellLinked([ct], Some(a)) by {
      assert [ct][0] == ct && [ct][1..] == [];
      assert WellLinked(ct.children, Some(c));
    }
    assert WellLinked([bt], None) by {
      assert [bt][0] == bt && [bt][1..] == [];
      assert WellLinked(bt.children, Some(b));
    }
    assert WellLinked([at], None) by {
      assert [at][0] == at && [at][1..] == [];
      assert at.children == [ct];
    }
    WellLinkedHeadTail(ts, None);
    MoveSubtaskStaleParent(ts, c, b);
  }

  /** The move dialog offers only root tasks other than the one being moved;
      with unique ids such a target is present and lies outside the moved
      subtree, so the page's move then keeps every id. */
  lemma MoveTargetOutside(ts: Forest, x: int, t: Task)
    requires UniqueIds(ts)
    requires x in IdsOf(ts)
    requires t in MoveTargets(ts, x)
    ensures t.id in IdsOf(ts)
    ensures t.id !in IdsOf([Lookup(ts, x).value])
    ensures IdsOf(MoveSubtask(ts, x, t.id)) == IdsOf(ts)
  {
    var i :| 0 <= i < |ts| && ts[i] == t;
    OccursElement(ts, i);
    OccursIds(t, ts);
    IdsOfSingle(t);
    RootIdOutsideOtherNode(ts, i, Lookup(ts, x).value);
    MoveSubtaskPreserves(ts, x, t.id);
  }

  /** Pressing the dialog's button: with nothing chosen the mirror stays as it
      is; a listed task as target keeps every id; the placeholder sends 0,
      which names no task, so the moved subtree vanishes from the mirror. */
  lemma DialogMoveOutcome(ts: Forest, x: int, c: Choice)
    requires UniqueIds(ts)
    requires c.Picked? ==> c.target in MoveTargets(ts, x)
    ensures c.Untouched? ==> DialogMove(ts, x, c) == ts
    ensures c.Picked? ==> IdsOf(DialogMove(ts, x, c)) == IdsOf(ts)
    ensures c.Placeholder? && 0 !in IdsOf(ts) ==>
      DialogMove(ts, x, c) == RemoveTask(ts, x) && x !in IdsOf(DialogMove(ts, x, c))
  {
    match c
    case Untouched =>
    case Picked(t) =>
      if x in IdsOf(ts) {
        MoveTargetOutside(ts, x, t);
      }
    case Placeholder =>
      if 0 !in IdsOf(ts) {
        RemoveTaskSpec(ts, x);
        MoveLosesSubtree(ts, x, 0);
      }
  }
}

=== FILE: rename_proofs.dfy ===
/** What renaming a task does to the mirrored forest: titles change, nothing
    else does. */
module RenameProofs {
  import opened Wrappers
  import opened Tasks
  import opened Mirror

  /** Reference definition of a rename on the pre-order listing: an entry gets
      the new title exactly when it carries `x` and no ancestor does. */
  function Retitle(es: seq<Entry>, x: int, title: string): seq<Entry>
  {
    if es == [] then []
    else
      [if es[0].id == x && x !in es[0].ancestors then es[0].(title := title) else es[0]]
      + Retitle(es[1..], x, title)
  }

  lemma {:induction false} RetitleAppend(a: seq<Entry>, b: seq<Entry>, x: int, title: string)
    ensures Retitle(a + b, x, title) == Retitle(a, x, title) + Retitle(b, x, title)
  {
    if a == [] {
      assert a + b == b;
    } else {
      assert (a + b)[0] == a[0];
      assert (a + b)[1..] == a[1..] + b;
      RetitleAppend(a[1..], b, x, title);
    }
  }

  lemma {:induction false} RetitleNone(es: seq<Entry>, x: int, title: string)
    requires forall e :: e in es ==> x in e.ancestors
    ensures Retitle(es, x, title) == es
  {
    if es != [] {
      assert es[0] in es;
      RetitleNone(es[1..], x, title);
      assert [es[0]] + es[1..] == es;
    }
  }

  /** The rename equals the reference definition. In particular a node below a
      renamed node keeps its title even if it carries the same id. */
  lemma {:induction false} UpdateTitleFlatten(ts: Forest, x: int, title: string, path: seq<int>)
    requires x !in path
    ensures Flatten(UpdateTitle(ts, x, title), path) == Retitle(Flatten(ts, path), x, title)
    decreases ts
  {
    if ts != [] {
      var t, rest := ts[0], ts[1..];
      FlattenAppend([RenameNode(t, x, title)], UpdateTitle(rest, x, title), path);
      FlattenHeadTail(ts, path);
      RetitleAppend(Flatten([t], path), Flatten(rest, path), x, title);
      RenameNodeFlatten(t, x, title, path);
      UpdateTitleFlatten(rest, x, title, path);
    }
  }

  lemma {:induction false} RenameNodeFlatten(t: Task, x: int, title: string, path: seq<int>)
    requires x !in path
    ensures Flatten([RenameNode(t, x, title)], path) == Retitle(Flatten([t], path), x, title)
    decreases t, 1
  {
    var t' := RenameNode(t, x, title);
    var self := [Entry(t.id, t.title, t.parentId, path)];
    var below := Flatten(t.children, path + [t.id]);
    FlattenHeadTail([t], path);
    FlattenHeadTail([t'], path);
    RetitleAppend(self, below, x, title);
    if t.id == x {
      forall e | e in below ensures x in e.ancestors {
        FlattenAncestors(t.children, path + [t.id], e);
      }
      RetitleNone(below, x, title);
    } else {
      UpdateTitleFlatten(t.children, x, title, path + [t.id]);
    }
  }

  /** The rename keeps the forest's shape, ids and parent links. */
  lemma {:induction false} UpdateTitleShape(ts: Forest, x: int, title: string)
    ensures EraseTitles(UpdateTitle(ts, x, title)) == EraseTitles(ts)
    decreases ts
  {
    if ts != [] {
      var r := UpdateTitle(ts, x, title);
      assert r[0] == RenameNode(ts[0], x, title);
      assert r[1..] == UpdateTitle(ts[1..], x, title);
      RenameNodeShape(ts[0], x, title);
      UpdateTitleShape(ts[1..], x, title);
    }
  }

  lemma {:induction false} RenameNodeShape(t: Task, x: int, title: string)
    ensures Blank(RenameNode(t, x, title)) == Blank(t)
    decreases t, 1
  {
    if t.id != x {
      UpdateTitleShape(t.children, x, title);
    }
  }

  /** Renaming an id that is not there changes nothing. */
  lemma {:induction false} UpdateTitleAbsent(ts: Forest, x: int, title: string)
    requires x !in IdsOf(ts)
    ensures UpdateTitle(ts, x, title) == ts
    decreases ts
  {
    if ts != [] {
      assert x !in IdsOf([ts[0]]) && x !in IdsOf(ts[1..]) by {
        IdsOfHeadTail(ts);
      }
      var r := UpdateTitle(ts, x, title);
      assert r[0] == RenameNode(ts[0], x, title) && r[1..] == UpdateTitle(ts[1..], x, title);
      RenameNodeAbsent(ts[0], x, title);
      UpdateTitleAbsent(ts[1..], x, title);
      SameHeadTail(r, ts);
    }
  }

  lemma {:induction false} RenameNodeAbsent(t: Task, x: int, title: string)
    requires x !in IdsOf([t])
    ensures RenameNode(t, x, title) == t
    decreases t, 1
  {
    IdsOfSingle(t);
    UpdateTitleAbsent(t.children, x, title);
  }

  /** The blanked view carries all ids and all parent links. */
  lemma {:induction false} EraseTitlesKeeps(ts: Forest, parent: Option<int>)
    ensures IdsOf(EraseTitles(ts)) == IdsOf(ts)
    ensures WellLinked(EraseTitles(ts), parent) <==> WellLinked(ts, parent)
  {
    if ts != [] {
      var t := ts[0];
      var e := EraseTitles(ts);
      assert e[0] == Blank(t);
      assert e[1..] == EraseTitles(ts[1..]);
      EraseTitlesKeeps(t.children, Some(t.id));
      EraseTitlesKeeps(ts[1..], parent);
    }
  }

  /** Renaming keeps the ids, their uniqueness and the parent links. */
  lemma UpdateTitleInvariants(ts: Forest, x: int, title: string, parent: Option<int>)
    ensures IdsOf(UpdateTitle(ts, x, title)) == IdsOf(ts)
    ensures UniqueIds(ts) ==> UniqueIds(UpdateTitle(ts, x, title))
    ensures WellLinked(ts, parent) ==> WellLinked(UpdateTitle(ts, x, title), parent)
  {
    var r := UpdateTitle(ts, x, title);
    UpdateTitleShape(ts, x, title);
    EraseTitlesKeeps(ts, parent);
    EraseTitlesKeeps(r, parent);
  }

  /** Reading the renamed id back gives the first node with that id, in
      pre-order, with the new title and every other field unchanged: that node
      has no ancestor with the id, so the walk always reaches it. */
  lemma {:induction false} UpdateTitleLookup(ts: Forest, x: int, title: string)
    requires x in IdsOf(ts)
    ensures Lookup(UpdateTitle(ts, x, title), x) == Some(Lookup(ts, x).value.(title := title))
  {
    var t := ts[0];
    var r := UpdateTitle(ts, x, title);
    assert r[0] == RenameNode(t, x, title);
    assert r[1..] == UpdateTitle(ts[1..], x, title);
    IdsOfHeadTail(ts);
    IdsOfSingle(t);
    if t.id != x {
      if x in IdsOf(t.children) {
        UpdateTitleLookup(t.children, x, title);
      } else {
        UpdateTitleAbsent(t.children, x, title);
        UpdateTitleLookup(ts[1..], x, title);
      }
    }
  }

  /** Renaming twice to the same title is renaming once. */
  lemma {:induction false} UpdateTitleIdempotent(ts: Forest, x: int, title: string)
    ensures UpdateTitle(UpdateTitle(ts, x, title), x, title) == UpdateTitle(ts, x, title)
    decreases ts
  {
    if ts != [] {
      var r := UpdateTitle(ts, x, title);
      assert r[0] == RenameNode(ts[0], x, title);
      assert r[1..] == UpdateTitle(ts[1..], x, title);
      RenameNodeIdempotent(ts[0], x, title);
      UpdateTitleIdempotent(ts[1..], x, title);
    }
  }

  lemma {:induction false} RenameNodeIdempotent(t: Task, x: int, title: string)
    ensures RenameNode(RenameNode(t, x, title), x, title) == RenameNode(t, x, title)
    decreases t, 1
  {
    if t.id != x {
      UpdateTitleIdempotent(t.children, x, title);
    }
  }
}

=== FILE: tasks.dfy ===
/** The task forest the page mirrors on the client, and the views of it that the
    contracts of the mirror operations are stated in. */
module Tasks {
  import opened Wrappers

  /** One task. `parentId == None` marks a root task. The children are always a
      sequence: a missing `children` field is read as the empty list. */
  datatype Task = Task(id: int, title: string, parentId: Option<int>, children: seq<Task>)

  /** The page's task list: its root tasks, each carrying its subtree. */
  type Forest = seq<Task>

  /** The ids of every node at every depth, with multiplicity. */
  function IdsOf(ts: Forest): multiset<int>
  {
    if ts == [] then multiset{}
    else multiset{ts[0].id} + IdsOf(ts[0].children) + IdsOf(ts[1..])
  }

  /** Number of nodes at every depth. */
  function Size(ts: Forest): nat
  {
    |IdsOf(ts)|
  }

  /** No id occurs twice anywhere in the forest, as the store guarantees. */
  ghost predicate UniqueIds(ts: Forest)
  {
    forall x :: IdsOf(ts)[x] <= 1
  }

  /** `n` is one of the nodes of the forest, at any depth, together with its subtree. */
  predicate Occurs(n: Task, ts: Forest)
  {
    ts != [] && (ts[0] == n || Occurs(n, ts[0].children) || Occurs(n, ts[1..]))
  }

  /** The first node with id `x` in pre-order. */
  function Lookup(ts: Forest, x: int): (r: Option<Task>)
    ensures r.Some? <==> x in IdsOf(ts)
    ensures r.Some? ==> r.value.id == x && Occurs(r.value, ts)
  {
    if ts == [] then None
    else if ts[0].id == x then Some(ts[0])
    else match Lookup(ts[0].children, x)
      case Some(n) => Some(n)
      case None => Lookup(ts[1..], x)
  }

  /** Number of nodes with id `p` that have no ancestor with id `p`: the nodes a
      traversal that stops at a match reaches. */
  function TopMatches(ts: Forest, p: int): nat
  {
    if ts == [] then 0
    else (if ts[0].id == p then 1 else TopMatches(ts[0].children, p)) + TopMatches(ts[1..], p)
  }

  /** The ids inside the subtrees rooted at the nodes `TopMatches` counts. */
  function Cut(ts: Forest, x: int): multiset<int>
  {
    if ts == [] then multiset{}
    else (if ts[0].id == x then IdsOf([ts[0]]) else Cut(ts[0].children, x)) + Cut(ts[1..], x)
  }

  /** `k` copies of `m`. */
  function Rep(m: multiset<int>, k: nat): multiset<int>
  {
    if k == 0 then multiset{} else m + Rep(m, k - 1)
  }

  /** Every node's `parentId` names the node it hangs under; `parent` is the
      value expected at the top level (`None` for the root list). */
  predicate WellLinked(ts: Forest, parent: Option<int>)
  {
    ts == [] ||
    (ts[0].parentId == parent && WellLinked(ts[0].children, Some(ts[0].id)) && WellLinked(ts[1..], parent))
  }

  /** A node as a pre-order walk sees it: its own fields and the ids on the path
      from the root list down to it. */
  datatype Entry = Entry(id: int, title: string, parentId: Option<int>, ancestors: seq<int>)

  /** Pre-order listing of the forest, each node tagged with its ancestors' ids
      (below the given `path`). */
  function Flatten(ts: Forest, path: seq<int>): seq<Entry>
  {
    if ts == [] then []
    else
      [Entry(ts[0].id, ts[0].title, ts[0].parentId, path)]
      + Flatten(ts[0].children, path + [ts[0].id])
      + Flatten(ts[1..], path)
  }

  /** The forest with every title blanked: its shape, ids and parent links only. */
  function EraseTitles(ts: Forest): Forest
  {
    if ts == [] then [] else [Blank(ts[0])] + EraseTitles(ts[1..])
  }

  function Blank(t: Task): Task
  {
    Task(t.id, "", t.parentId, EraseTitles(t.children))
  }

  // ---------------------------------------------------------------------------
  // Facts about the views

  lemma IdsOfSingle(t: Task)
    ensures IdsOf([t]) == multiset{t.id} + IdsOf(t.children)
  {
    assert [t][1..] == [];
  }

  /** The ids of a non-empty forest: its first subtree's and the rest's. */
  lemma IdsOfHeadTail(ts: Forest)
    requires ts != []
    ensures IdsOf(ts) == IdsOf([ts[0]]) + IdsOf(ts[1..])
  {
    IdsOfSingle(ts[0]);
  }

  /** Two non-empty forests with the same first task and the same rest are equal. */
  lemma SameHeadTail(a: Forest, b: Forest)
    requires a != [] && b != []
    requires a[0] == b[0] && a[1..] == b[1..]
    ensures a == b
  {
    assert a == [a[0]] + a[1..];
    assert b == [b[0]] + b[1..];
  }

  lemma Regroup(a: multiset<int>, b: multiset<int>, c: multiset<int>, d: multiset<int>)
    ensures (a + c) + (b + d) == (a + b) + (c + d)
  {
  }

  lemma {:induction false} IdsOfAppend(a: Forest, b: Forest)
    ensures IdsOf(a + b) == IdsOf(a) + IdsOf(b)
  {
    if a != [] {
      assert (a + b)[0] == a[0];
      assert (a + b)[1..] == a[1..] + b;
      IdsOfAppend(a[1..], b);
    } else {
      assert a + b == b;
    }
  }

  lemma {:induction false} OccursAppend(n: Task, a: Forest, b: Forest)
    ensures Occurs(n, a + b) <==> Occurs(n, a) || Occurs(n, b)
  {
    if a != [] {
      assert (a + b)[0] == a[0];
      assert (a + b)[1..] == a[1..] + b;
      OccursAppend(n, a[1..], b);
    } else {
      assert a + b == b;
    }
  }

  lemma {:induction false} OccursElement(ts: Forest, i: int)
    requires 0 <= i < |ts|
    ensures Occurs(ts[i], ts)
  {
    if i > 0 {
      OccursElement(ts[1..], i - 1);
    }
  }

  /** A node's subtree ids are part of the forest's ids. */
  lemma {:induction false} OccursIds(n: Task, ts: Forest)
    requires Occurs(n, ts)
    ensures IdsOf([n]) <= IdsOf(ts)
  {
    IdsOfSingle(n);
    if ts[0] == n {
    } else if Occurs(n, ts[0].children) {
      OccursIds(n, ts[0].children);
    } else {
      OccursIds(n, ts[1..]);
    }
  }

  /** A node strictly inside the subtree of `t` has subtree ids that sit below
      `t`'s own id. */
  lemma {:induction false} OccursBelow(n: Task, t: Task)
    requires Occurs(n, t.children)
    ensures multiset{t.id} + IdsOf([n]) <= IdsOf([t])
  {
    OccursIds(n, t.children);
    IdsOfSingle(t);
  }

  lemma UniqueIdsSub(small: Forest, big: Forest)
    requires IdsOf(small) <= IdsOf(big)
    requires UniqueIds(big)
    ensures UniqueIds(small)
  {
    forall x ensures IdsOf(small)[x] <= 1 {
      assert IdsOf(small)[x] <= IdsOf(big)[x];
    }
  }

  lemma UniqueIdsParts(ts: Forest)
    requires ts != []
    requires UniqueIds(ts)
    ensures UniqueIds(ts[0].children) && UniqueIds(ts[1..])
    ensures ts[0].id !in IdsOf(ts[0].children) && ts[0].id !in IdsOf(ts[1..])
    ensures IdsOf([ts[0]]) !! IdsOf(ts[1..])
  {
    UniqueIdsSub(ts[0].children, ts);
    UniqueIdsSub(ts[1..], ts);
    IdsOfSingle(ts[0]);
    var a := IdsOf([ts[0]]);
    var b := IdsOf(ts[1..]);
    assert IdsOf(ts) == a + b;
    forall x | x in a ensures x !in b {
      assert IdsOf(ts)[x] == a[x] + b[x];
    }
  }

  /** With unique ids, the node carrying an id is the one `Lookup` finds. */
  lemma {:induction false} UniqueOccursIsLookup(n: Task, ts: Forest)
    requires UniqueIds(ts)
    requires Occurs(n, ts)
    ensures Lookup(ts, n.id) == Some(n)
  {
    UniqueIdsParts(ts);
    var t := ts[0];
    IdsOfSingle(n);
    if t == n {
    } else if Occurs(n, t.children) {
      OccursIds(n, t.children);
      assert n.id in IdsOf(t.children);
      assert t.id != n.id;
      UniqueOccursIsLookup(n, t.children);
    } else {
      assert Occurs(n, ts[1..]);
      OccursIds(n, ts[1..]);
      assert n.id in IdsOf(ts[1..]);
      IdsOfSingle(t);
      assert n.id !in IdsOf([t]);
      assert t.id != n.id && n.id !in IdsOf(t.children);
      assert Lookup(t.children, n.id) == None;
      UniqueOccursIsLookup(n, ts[1..]);
    }
  }

  /** Every occurrence of `p` is counted by `TopMatches` or hidden below a counted one. */
  lemma {:induction false} TopMatchesBounds(ts: Forest, p: int)
    ensures TopMatches(ts, p) <= IdsOf(ts)[p]
    ensures p in IdsOf(ts) ==> TopMatches(ts, p) >= 1
  {
    if ts != [] {
      TopMatchesBounds(ts[0].children, p);
      TopMatchesBounds(ts[1..], p);
    }
  }

  lemma UniqueTopMatch(ts: Forest, p: int)
    requires UniqueIds(ts)
    requires p in IdsOf(ts)
    ensures TopMatches(ts, p) == 1
  {
    TopMatchesBounds(ts, p);
  }

  lemma {:induction false} CutAbsent(ts: Forest, x: int)
    requires x !in IdsOf(ts)
    ensures Cut(ts, x) == multiset{}
  {
    if ts != [] {
      CutAbsent(ts[0].children, x);
      CutAbsent(ts[1..], x);
    }
  }

  /** With unique ids, what `Cut` gathers is exactly the subtree of the one node
      carrying the id. */
  lemma {:induction false} CutOfUnique(ts: Forest, x: int)
    requires UniqueIds(ts)
    requires x in IdsOf(ts)
    ensures Cut(ts, x) == IdsOf([Lookup(ts, x).value])
  {
    UniqueIdsParts(ts);
    if ts[0].id == x {
      CutAbsent(ts[1..], x);
    } else if x in IdsOf(ts[0].children) {
      CutOfUnique(ts[0].children, x);
      IdsOfSingle(ts[0]);
      assert x !in IdsOf(ts[1..]);
      CutAbsent(ts[1..], x);
    } else {
      CutAbsent(ts[0].children, x);
      CutOfUnique(ts[1..], x);
    }
  }

  /** A node in the subtree of a different root cannot carry that root's id. */
  lemma {:induction false} RootIdOutsideOtherNode(ts: Forest, i: int, n: Task)
    requires UniqueIds(ts)
    requires 0 <= i < |ts|
    requires Occurs(n, ts)
    requires n != ts[i]
    ensures ts[i].id !in IdsOf([n])
  {
    if i == 0 {
      FirstIdOutside(ts, n);
    } else if ts[0] == n || Occurs(n, ts[0].children) {
      LaterIdOutsideFirst(ts, i, n);
    } else {
      UniqueIdsSub(ts[1..], ts);
      assert ts[i] == ts[1..][i - 1];
      RootIdOutsideOtherNode(ts[1..], i - 1, n);
    }
  }

  lemma FirstIdOutside(ts: Forest, n: Task)
    requires ts != []
    requires IdsOf(ts)[ts[0].id] <= 1
    requires Occurs(n, ts)
    requires n != ts[0]
    ensures ts[0].id !in IdsOf([n])
  {
    var t, rest := ts[0], ts[1..];
    var y := t.id;
    CountSplit(ts, y);
    if Occurs(n, t.children) {
      OccursBelow(n, t);
      assert IdsOf([t])[y] >= 1 + IdsOf([n])[y];
    } else {
      OccursIds(n, rest);
      assert IdsOf(rest)[y] >= IdsOf([n])[y];
    }
  }

  lemma LaterIdOutsideFirst(ts: Forest, i: int, n: Task)
    requires 0 < i < |ts|
    requires IdsOf(ts)[ts[i].id] <= 1
    requires ts[0] == n || Occurs(n, ts[0].children)
    ensures ts[i].id !in IdsOf([n])
  {
    var y := ts[i].id;
    assert IdsOf(ts)[y] == IdsOf([ts[0]])[y] + IdsOf(ts[1..])[y] by {
      CountSplit(ts, y);
    }
    LaterIdInRest(ts, i);
    SelfOrBelow(n, ts[0]);
  }

  /** A later root's id occurs among the roots after the first. */
  lemma LaterIdInRest(ts: Forest, i: int)
    requires 0 < i < |ts|
    ensures ts[i].id in IdsOf(ts[1..])
  {
    var rest := ts[1..];
    assert ts[i] == rest[i - 1];
    OccursElement(rest, i - 1);
    OccursIds(ts[i], rest);
    IdsOfSingle(ts[i]);
  }

  /** A task, or a node below it, has no more ids than the task's subtree. */
  lemma SelfOrBelow(n: Task, t: Task)
    requires t == n || Occurs(n, t.children)
    ensures IdsOf([n]) <= IdsOf([t])
  {
    if t != n {
      OccursBelow(n, t);
    }
  }

  /** How often `y` occurs in a non-empty forest, part by part. */
  lemma CountSplit(ts: Forest, y: int)
    requires ts != []
    ensures IdsOf(ts)[y] == IdsOf([ts[0]])[y] + IdsOf(ts[1..])[y]
    ensures IdsOf([ts[0]])[y] == (if ts[0].id == y then 1 else 0) + IdsOf(ts[0].children)[y]
  {
    IdsOfSingle(ts[0]);
  }

  /** Every entry of the pre-order listing lies below the path it was started at. */
  lemma {:induction false} FlattenAncestors(ts: Forest, path: seq<int>, e: Entry)
    requires e in Flatten(ts, path)
    ensures path <= e.ancestors
  {
    var t := ts[0];
    var tail := Flatten(t.children, path + [t.id]) + Flatten(ts[1..], path);
    assert Flatten(ts, path) == [Entry(t.id, t.title, t.parentId, path)] + tail;
    if e == Entry(t.id, t.title, t.parentId, path) {
    } else if e in Flatten(t.children, path + [t.id]) {
      FlattenAncestors(t.children, path + [t.id], e);
    } else {
      assert e in Flatten(ts[1..], path);
      FlattenAncestors(ts[1..], path, e);
    }
  }

  lemma {:induction false} WellLinkedAppend(a: Forest, b: Forest, q: Option<int>)
    ensures WellLinked(a + b, q) <==> WellLinked(a, q) && WellLinked(b, q)
  {
    if a == [] {
      assert a + b == b;
    } else {
      assert (a + b)[0] == a[0];
      assert (a + b)[1..] == a[1..] + b;
      WellLinkedAppend(a[1..], b, q);
    }
  }

  lemma WellLinkedHeadTail(ts: Forest, q: Option<int>)
    requires ts != []
    ensures WellLinked(ts, q) <==> WellLinked([ts[0]], q) && WellLinked(ts[1..], q)
  {
    assert [ts[0]][1..] == [];
  }

  lemma {:induction false} FlattenAppend(a: Forest, b: Forest, path: seq<int>)
    ensures Flatten(a + b, path) == Flatten(a, path) + Flatten(b, path)
  {
    if a == [] {
      assert a + b == b;
    } else {
      assert (a + b)[0] == a[0];
      assert (a + b)[1..] == a[1..] + b;
      FlattenAppend(a[1..], b, path);
    }
  }

  lemma FlattenHeadTail(ts: Forest, path: seq<int>)
    requires ts != []
    ensures Flatten(ts, path) == Flatten([ts[0]], path) + Flatten(ts[1..], path)
    ensures Flatten([ts[0]], path) ==
      [Entry(ts[0].id, ts[0].title, ts[0].parentId, path)] + Flatten(ts[0].children, path + [ts[0].id])
  {
    assert [ts[0]][1..] == [];
  }

  /** A node's subtree is well linked under its own id. */
  lemma {:induction false} WellLinkedOccurs(n: Task, ts: Forest, parent: Option<int>)
    requires WellLinked(ts, parent)
    requires Occurs(n, ts)
    ensures WellLinked(n.children, Some(n.id))
  {
    if ts[0] == n {
    } else if Occurs(n, ts[0].children) {
      WellLinkedOccurs(n, ts[0].children, Some(ts[0].id));
    } else {
      WellLinkedOccurs(n, ts[1..], parent);
    }
  }
}

=== FILE: wrappers.dfy ===
/** The optional value used for a nullable parent reference and for the node a
    search may or may not find. */
module Wrappers {

  datatype Option<+T> = None | Some(value: T)
}
